=== FILE: README.md ===
# Slack release notifier, modelled in Dafny

`SlackSender.Send` in the github-releases-notifier (slack.go) announces a new
GitHub release in a Slack channel. It renders a fixed-shape Slack attachment
from the repository record — a border colour chosen by the prerelease flag, a
link line, a bolded pretext, the release title and link, one "Description"
field, a fixed footer and icon, markdown enabled for the pretext only, and
the publish timestamp — serialises it to JSON, POSTs it to the webhook URL
under a five-second deadline, and returns nil for a 200 answer and an error
otherwise.

The model has four modules:

- `Results` (results.dfy): `Option` and `Result`; `None` stands for Go's nil
  error.
- `Text` (text.dfy): string helpers — prefix and suffix stripping, splitting
  at the first occurrence of a character, and substring containment — with
  their lemmas.
- `Slack` (slack.dfy): the records `Release`, `Repository`,
  `AttachmentField`, `SlackAttachment` and `SlackPayload`; the constants of
  the layout; `BuildPayload`, the payload half of `Send`; and readers that
  invert each rendered string (`ParseLinkText`, `ParsePretext`,
  `RepositoryOf`), so that the contracts can state that the notification
  carries every field of the record and nothing is lost or garbled.
- `Delivery` (delivery.dfy): the delivery half of `Send`. The JSON
  serialiser, `http.NewRequest` and the HTTP client are the three functions
  of an `Environment`; `Deliver` runs them in order and stops at the first
  failure, `Classify` turns the outcome into the returned error, and `Send`
  composes payload building, delivery and classification.

The link line and pretext are written grouped from the right
(`"<" + (url + ("|" + …)))`); this is the same string as the left-to-right
format in the source, and the grouping lets each reading step peel off one
piece.

The source does no escaping. The readers `ParseLinkText` and `ParsePretext`
split at the first occurrence of each delimiter, so they read a string back
only when the delimiters do not occur inside the values: the repository URL
and release URL must not contain `|`, the owner must not contain `/`, and the
repository name must not contain `>` (nor `*` for the pretext); the round-trip
lemmas carry these conditions as preconditions. Some of these conditions only
serve the reader. The link line on its own is ambiguous when a URL contains
`|` or the owner contains `/`. The whole payload is ambiguous only when an
owner contains `/` (`Slack.SlashInOwnerAmbiguous`), because the title, title
link and pretext repeat the other values (`Slack.BuildPayloadInjective`).
GitHub owner and repository names never contain these characters.
`url.URL.String` percent-escapes `|` in the host, path, user information and
fragment, but writes a raw query and an opaque part verbatim, so a URL such as
`https://x/?a=|b` does contain `|`. The release name and description may
contain anything.

## Model

| member | source | states |
|---|---|---|
| Slack.BorderColor | slack.go:44-49 | the colour is "#FFC600" exactly when the release is a prerelease and "#15e415" exactly when it is not, so no third value occurs |
| Slack.AttachmentKeys | slack.go:24-36 | the struct tags of an attachment name eleven pairwise distinct keys, "pretext" among them; the `mrkdwn_in` list of every built payload names only these keys (see Slack.BuildPayload) |
| Slack.LinkText | slack.go:51-58 | the link line starts with "<" and ends with "> released"; it is read back by Slack.ParseLinkText (see Slack.LinkTextRoundTrip) |
| Slack.LinkTextNamesAll | slack.go:51-58 | the link line contains the repository URL, owner, name, release URL and release name |
| Slack.ParseLinkText | slack.go:51-58 | whatever the reader recovers from a link line renders back to exactly that line, and the recovered values are delimiter-free |
| Slack.LinkTextRoundTrip | slack.go:51-58 | the link line built from repository URL, owner, name, release URL and release name gives all five back when they are delimiter-free |
| Slack.Pretext | slack.go:64-69 | the pretext starts with "*" and ends with "_"; it is read back by Slack.ParsePretext (see Slack.PretextRoundTrip) |
| Slack.PretextNamesAll | slack.go:64-69 | the pretext contains the owner, the repository name and the release name |
| Slack.ParsePretext | slack.go:64-69 | whatever the reader recovers from a pretext renders back to exactly that pretext |
| Slack.PretextRoundTrip | slack.go:64-69 | the bolded pretext gives owner, repository name and release name back |
| Slack.BuildPayload | slack.go:60-85 | the payload has exactly one attachment with fallback equal to text, one non-short "Description" field, one of the two colours chosen by the prerelease flag, the fixed footer, icon and `["pretext"]` markdown list whose entries are all attachment keys; its title, title link, field value, timestamp and colour give back the release unchanged |
| Slack.RepositoryOf | slack.go:60-85 | a repository record recovered from a payload rebuilds exactly that payload |
| Slack.RebuildWellShaped | slack.go:60-85 | a payload of the fixed shape is determined by its release, link line and pretext |
| Slack.PayloadRoundTrip | slack.go:43-85 | every repository record with delimiter-free names and URLs is recovered from its notification |
| Slack.BuildPayloadInjective | slack.go:43-85 | two repository records whose owners contain no `/` and that have the same notification are equal, whatever their URLs and names contain |
| Slack.SlashInOwnerAmbiguous | slack.go:51-69 | owner "a/b" with name "c" and owner "a" with name "b/c" (for any a, b, c, URL and release) give the same notification, so a `/` inside an owner cannot be recovered |
| Slack.PretextAgreesWithLinkText | slack.go:51-71 | the pretext and the link line name the same owner, repository and release, and the release name and URL also appear as title and title link |
| Slack.DescriptionVerbatim | slack.go:73-79 | the field list is exactly one "Description" field holding the description verbatim, empty or not, with `short` false |
| Slack.WidgetExample | slack.go:44-85 | a stable acme/widget v1.2.0 release published at 1672531200 gets pretext "*acme/widget* - _v1.2.0_", colour "#15e415" and timestamp 1672531200 |
| Delivery.Deliver | slack.go:87-104 | the outcome is the response `resp` exactly when serialisation succeeds, a POST request to the hook carrying the serialised bytes is built and the transport answers `resp`; otherwise it is the error of the first failing step (serialisation, request construction or transport), unchanged |
| Delivery.StatusError | slack.go:108 | the non-200 error message starts with "request didn't respond with 200 OK: " and contains both the status line and the body; it is read back by Delivery.ParseStatusError (see Delivery.StatusErrorRoundTrip) |
| Delivery.Classify | slack.go:87-111 | an earlier error is returned unchanged; the result is nil exactly for a 200 response, whatever the body; any other code gives exactly the status error for that status line and body |
| Delivery.ClassifyReadsBack | slack.go:106-109 | for a non-200 answer whose status line has no comma, the status line and body are read back from the error `Classify` returns |
| Delivery.ParseStatusError | slack.go:106-109 | whatever is read back from a status error message renders back to exactly that message |
| Delivery.StatusErrorRoundTrip | slack.go:106-109 | the status line (when it has no comma) and the body are both recovered from the error message |
| Delivery.Send | slack.go:43-112 | `Send` returns nil exactly when serialisation, request construction and transport succeed and the transport's answer has code 200; a transport answer with any other code gives the status error for that answer's status line and body |
| Delivery.MarshalFailureShortCircuits | slack.go:87-90 | after a serialisation error the result is that error, whatever request construction and transport would do |
| Delivery.RequestFailureShortCircuits | slack.go:92-95 | after a request construction error the result is that error, whatever the transport would do |
| Delivery.TransportFailureReturned | slack.go:100-103 | a transport error reaches the caller unchanged and no status code is inspected |
| Delivery.StatusPrefixInMessage | slack.go:106-109 | for a non-200 answer, whatever the status line starts with (the numeric code, in a status line such as "500 Internal Server Error") also appears in the error message |
| Delivery.ServerErrorExample | slack.go:106-109 | a 500 answer with body "oops" gives an error whose message contains "500" and "oops" |

## Left out

- The HTTP request itself, `http.DefaultClient.Do` and the five-second context deadline (slack.go:92-104): network I/O and timing. The transport is a parameter; a timeout is one of the errors it may return.
- `json.Marshal` (slack.go:87): a library serialiser. It is a parameter; only the JSON key names from the struct tags are modelled, as constants.
- `url.URL.String()` and `time.Time.Unix()` (slack.go:53, 56, 71, 80): library calls. URLs are given as strings and the publish time as Unix seconds in an `int64`, so Go's rounding of pre-1970 sub-second times is not modelled.
- The body read on the failure path (slack.go:107), whose own error is discarded: the body is given as a string, so a failed read is an empty or partial body, which the model does not distinguish.
- Go strings and the `[]byte` response body are byte sequences; the model uses Dafny strings, which are sequences of Unicode characters, so values that are not valid UTF-8 are outside the model. The properties only concatenate and split at ASCII delimiters, which behave the same on bytes.
- `resp.Body.Close()` and `cancel()` (slack.go:98, 104): resource release with no effect on the result.
- Delivery.Classify: the status line and the status code are independent inputs, as the library delivers both. That the status line starts with the code is not modelled, so the model says the message contains the status line and, through `Delivery.StatusPrefixInMessage`, whatever that line starts with, not the decimal rendering of the code itself.

=== FILE: delivery.dfy ===
/** The delivery half of `SlackSender.Send` (slack.go): serialise the payload,
    build a POST request to the webhook, send it, and turn the outcome into
    the error the caller sees. Serialisation, request construction and the
    HTTP round trip are library calls; they enter the model as the functions
    of an `Environment`, so the contracts hold whatever those calls do. */
module Delivery {
  import opened Results
  import Slack
  import Text

  newtype byte = x: int | 0 <= x < 256

  /** A Go error value, known by its message. */
  datatype Error = Error(message: string)

  /** What the webhook answered: the numeric code, the status line
      (such as "500 Internal Server Error") and the response body. */
  datatype Response = Response(statusCode: int, status: string, body: string)

  /** The library calls `Send` makes, in the order it makes them: the JSON
      serialiser, request construction from method, URL and body, and the
      HTTP client (with its deadline). `Req` is the library's request value. */
  datatype Environment<!Req> = Environment(
    marshal: Slack.SlackPayload -> Result<seq<byte>, Error>,
    newRequest: (string, string, seq<byte>) -> Result<Req, Error>,
    transport: Req -> Result<Response, Error>)

  /** `SlackSender`: the webhook URL it posts to. */
  datatype SlackSender = SlackSender(hook: string)

  const MethodPost: string := "POST"
  const StatusOK: int := 200
  const StatusErrorPrefix: string := "request didn't respond with 200 OK: "

  /** How a send attempt ended before classification: an error from one of
      the three library steps, or a response from the webhook. */
  datatype Outcome = Failed(err: Error) | Responded(response: Response)

  /** Whether the three steps for `payload` all succeed and the transport
      answers `resp`: the serialiser accepts the payload, a POST request to
      `hook` carrying the serialised bytes is built, and sending that request
      returns `resp`. */
  predicate Answered<Req>(hook: string, payload: Slack.SlackPayload, env: Environment<Req>, resp: Response) {
    && env.marshal(payload).Success?
    && env.newRequest(MethodPost, hook, env.marshal(payload).value).Success?
    && env.transport(env.newRequest(MethodPost, hook, env.marshal(payload).value).value) == Success(resp)
  }

  /** Runs the three steps in order and stops at the first that fails,
      keeping its error as it is; otherwise the outcome is the transport's
      response, unaltered. */
  function Deliver<Req>(hook: string, payload: Slack.SlackPayload, env: Environment<Req>): (o: Outcome)
    ensures forall resp :: o == Responded(resp) <==> Answered(hook, payload, env, resp)
    ensures var m := env.marshal(payload);
            m.Failure? ==> o == Failed(m.error)
    ensures var m := env.marshal(payload);
            m.Success? && env.newRequest(MethodPost, hook, m.value).Failure? ==>
              o == Failed(env.newRequest(MethodPost, hook, m.value).error)
    ensures var m := env.marshal(payload);
            m.Success? && env.newRequest(MethodPost, hook, m.value).Success? ==>
              var t := env.transport(env.newRequest(MethodPost, hook, m.value).value);
              t.Failure? ==> o == Failed(t.error)
  {
    match env.marshal(payload)
    case Failure(e) => Failed(e)
    case Success(data) =>
      match env.newRequest(MethodPost, hook, data)
      case Failure(e) => Failed(e)
      case Success(req) =>
        match env.transport(req)
        case Failure(e) => Failed(e)
        case Success(resp) => Responded(resp)
  }

  /** The error reported for a response other than 200 OK: the fixed prefix
      followed by the status line and the body, which it names both.
      `ParseStatusError` reads it back. */
  function StatusError(status: string, body: string): (e: Error)
    ensures StatusErrorPrefix <= e.message
    ensures Text.Contains(e.message, status) && Text.Contains(e.message, body)
  {
    var tail := "," + (" " + body);
    Text.ContainsMiddle(StatusErrorPrefix, status, tail);
    assert Text.Contains(body, body);
    Text.ContainsExtend(" ", body, body);
    Text.ContainsExtend(",", " " + body, body);
    Text.ContainsExtend(status, tail, body);
    Text.ContainsExtend(StatusErrorPrefix, status + tail, body);
    Error(StatusErrorPrefix + (status + tail))
  }

  /** Turns an outcome into the value `Send` returns, `None` standing for a
      nil error: an earlier error is passed on unchanged, a 200 response is
      success whatever its body, and any other code is the status error for
      that status line and body. */
  function Classify(o: Outcome): (r: Option<Error>)
    ensures o.Failed? ==> r == Some(o.err)
    ensures r.None? <==> o.Responded? && o.response.statusCode == StatusOK
    ensures o.Responded? && o.response.statusCode != StatusOK ==>
      r == Some(StatusError(o.response.status, o.response.body))
  {
    match o
    case Failed(e) => Some(e)
    case Responded(resp) =>
      if resp.statusCode != StatusOK then Some(StatusError(resp.status, resp.body)) else None
  }

  /** Reads the status line and body back out of a status error message;
      whatever it returns renders to exactly that message. */
  function ParseStatusError(message: string): (r: Option<(string, string)>)
    ensures r.Some? ==> StatusError(r.value.0, r.value.1).message == message
    ensures r.Some? ==> ',' !in r.value.0
  {
    var rest :- Text.StripPrefix(StatusErrorPrefix, message);
    var (status, tail) :- Text.SplitOn(rest, ',');
    var body :- Text.StripPrefix(" ", tail);
    Some((status, body))
  }

  /** A status line without a comma and any body are recovered from the
      error message, so the message identifies both. */
  lemma StatusErrorRoundTrip(status: string, body: string)
    requires ',' !in status
    ensures ParseStatusError(StatusError(status, body).message) == Some((status, body))
  {
    var tail := " " + body;
    Text.StripPrefixJoin(StatusErrorPrefix, status + ("," + tail));
    Text.SplitOnJoin(status, ',', tail);
    Text.StripPrefixJoin(" ", body);
  }

  /** `SlackSender.Send`: build the payload for `repo`, deliver it to the
      webhook and classify the outcome. The result is nil exactly when every
      step succeeds and the webhook answers 200; a webhook answer other than
      200 gives the status error for that answer. */
  function Send<Req>(sender: SlackSender, repo: Slack.Repository, env: Environment<Req>): (r: Option<Error>)
    ensures r.None? <==>
      exists resp :: Answered(sender.hook, Slack.BuildPayload(repo), env, resp) && resp.statusCode == StatusOK
    ensures forall resp ::
              Answered(sender.hook, Slack.BuildPayload(repo), env, resp) && resp.statusCode != StatusOK
              ==> r == Some(StatusError(resp.status, resp.body))
  {
    var o := Deliver(sender.hook, Slack.BuildPayload(repo), env);
    assert o.Responded? ==> Answered(sender.hook, Slack.BuildPayload(repo), env, o.response);
    Classify(o)
  }

  /** The status error a non-200 answer produces names the status line and
      the body, and reading it back gives both, so long as the status line
      has no comma. */
  lemma ClassifyReadsBack(o: Outcome)
    requires o.Responded? && o.response.statusCode != StatusOK
    requires ',' !in o.response.status
    ensures Classify(o).Some?
    ensures ParseStatusError(Classify(o).value.message) == Some((o.response.status, o.response.body))
  {
    StatusErrorRoundTrip(o.response.status, o.response.body);
  }

  /** Once serialisation fails, neither request construction nor the
      transport is consulted: two environments that agree on the serialiser
      give the same result, and that result is the serialiser's error. */
  lemma MarshalFailureShortCircuits<Req>(sender: SlackSender, repo: Slack.Repository,
                                         env1: Environment<Req>, env2: Environment<Req>)
    requires env1.marshal == env2.marshal
    requires env1.marshal(Slack.BuildPayload(repo)).Failure?
    ensures Send(sender, repo, env1) == Send(sender, repo, env2)
            == Some(env1.marshal(Slack.BuildPayload(repo)).error)
  {
  }

  /** Once request construction fails, the transport is not consulted. */
  lemma RequestFailureShortCircuits<Req>(sender: SlackSender, repo: Slack.Repository,
                                         env1: Environment<Req>, env2: Environment<Req>)
    requires env1.marshal == env2.marshal && env1.newRequest == env2.newRequest
    requires env1.marshal(Slack.BuildPayload(repo)).Success?
    requires env1.newRequest(MethodPost, sender.hook, env1.marshal(Slack.BuildPayload(repo)).value).Failure?
    ensures Send(sender, repo, env1) == Send(sender, repo, env2)
            == Some(env1.newRequest(MethodPost, sender.hook, env1.marshal(Slack.BuildPayload(repo)).value).error)
  {
  }

  /** A transport failure (connection refused, DNS, the deadline passing)
      reaches the caller as the very error the client returned. */
  lemma TransportFailureReturned<Req>(sender: SlackSender, repo: Slack.Repository, env: Environment<Req>)
    requires env.marshal(Slack.BuildPayload(repo)).Success?
    requires env.newRequest(MethodPost, sender.hook, env.marshal(Slack.BuildPayload(repo)).value).Success?
    requires env.transport(env.newRequest(MethodPost, sender.hook,
                                          env.marshal(Slack.BuildPayload(repo)).value).value).Failure?
    ensures Send(sender, repo, env)
         == Some(env.transport(env.newRequest(MethodPost, sender.hook,
                                              env.marshal(Slack.BuildPayload(repo)).value).value).error)
  {
  }

  /** A status line starts with the numeric code, as in
      "500 Internal Server Error"; whatever the status line starts with is
      named in the error message. */
  lemma StatusPrefixInMessage(o: Outcome, code: string)
    requires o.Responded? && o.response.statusCode != StatusOK
    requires code <= o.response.status
    ensures Classify(o).Some? && Text.Contains(Classify(o).value.message, code)
  {
    var message := Classify(o).value.message;
    assert Text.Contains(o.response.status, code);
    Text.ContainsTransitive(message, o.response.status, code);
  }

  /** The failure example: a 500 answer with body "oops" gives an error whose
      message names both. */
  lemma ServerErrorExample(o: Outcome)
    requires o == Responded(Response(500, "500 Internal Server Error", "oops"))
    ensures var r := Classify(o);
            && r.Some?
            && Text.Contains(r.value.message, "500")
            && Text.Contains(r.value.message, "oops")
  {
    assert "500" <= o.response.status;
    StatusPrefixInMessage(o, "500");
  }
}

=== FILE: results.dfy ===
/** Failure-compatible wrappers shared by the rest of the model. `Option` stands
    for a Go value that may be absent (a nil error, a parse that did not match);
    `Result` for a Go call that returns a value together with an error. */
module Results {

  datatype Option<+T> = None | Some(value: T) {

    predicate IsFailure() {
      None?
    }

    function PropagateFailure<U>(): Option<U>
      requires None?
    {
      None
    }

    function Extract(): T
      requires Some?
    {
      value
    }
  }

  datatype Result<+T, +E> = Success(value: T) | Failure(error: E)
}

=== FILE: slack.dfy ===
/** The Slack attachment payload that announces a GitHub release, and the
    pure part of `SlackSender.Send` that builds it from a repository record
    (slack.go). Each rendered string has a reader alongside it, so that the
    contracts can say the payload carries every field of the record. */
module Slack {
  import opened Results
  import Text

  /** Go's `int64`: the type of the attachment timestamp. */
  newtype int64 = x: int | -0x8000_0000_0000_0000 <= x < 0x8000_0000_0000_0000

  /** A published release; `publishedAt` is the publish time in Unix seconds
      and both URLs are already rendered as strings. */
  datatype Release = Release(
    name: string,
    description: string,
    url: string,
    publishedAt: int64,
    isPrerelease: bool)

  datatype Repository = Repository(
    owner: string,
    name: string,
    url: string,
    release: Release)

  datatype AttachmentField = AttachmentField(title: string, value: string, short: bool)

  datatype SlackAttachment = SlackAttachment(
    fallback: string,
    text: string,
    pretext: string,
    color: string,
    title: string,
    titleLink: string,
    fields: seq<AttachmentField>,
    footer: string,
    footerIcon: string,
    markdownIn: seq<string>,
    ts: int64)

  datatype SlackPayload = SlackPayload(attachments: seq<SlackAttachment>)

  const PrereleaseColor: string := "#FFC600"
  const ReleaseColor: string := "#15e415"
  const DescriptionTitle: string := "Description"
  const Footer: string := " "
  const FooterIcon: string := "https://assets-cdn.github.com/images/modules/logos_page/GitHub-Mark.png"
  const MarkdownIn: seq<string> := ["pretext"]

  /** The JSON object keys of an attachment, in declaration order, as the
      struct tags name them. */
  function AttachmentKeys(): (keys: seq<string>)
    ensures |keys| == 11
    ensures forall i, j :: 0 <= i < j < |keys| ==> keys[i] != keys[j]
    ensures "pretext" in keys
  {
    ["fallback", "text", "pretext", "color", "title", "title_link",
     "fields", "footer", "footer_icon", "mrkdwn_in", "ts"]
  }

  /** The border colour: amber for a prerelease, green otherwise. */
  function BorderColor(isPrerelease: bool): (c: string)
    ensures c == PrereleaseColor <==> isPrerelease
    ensures c == ReleaseColor <==> !isPrerelease
  {
    if isPrerelease then PrereleaseColor else ReleaseColor
  }

  // ---------------------------------------------------------------------------
  // The link line: "<repoURL|owner/name>: <releaseURL|releaseName> released"
  // ---------------------------------------------------------------------------

  /** The five values the link line embeds. */
  datatype Headline = Headline(
    repoUrl: string,
    owner: string,
    name: string,
    releaseUrl: string,
    releaseName: string)

  function HeadlineOf(repo: Repository): (h: Headline) {
    Headline(repo.url, repo.owner, repo.name, repo.release.url, repo.release.name)
  }

  /** The link line, grouped from the right so that each step of reading it
      back peels off one piece: a Slack link `<url|text>` followed by a second
      one and the word "released". `ParseLinkText` reads it back. */
  function LinkText(h: Headline): (s: string)
    ensures "<" <= s
    ensures |s| >= |Released| && s[|s| - |Released|..] == Released
  {
    "<" + (h.repoUrl + ("|" + (h.owner + ("/" + (h.name + (">" + (": <"
      + (h.releaseUrl + ("|" + (h.releaseName + Released))))))))))
  }

  const Released: string := "> released"

  /** The link line names each of the five values it embeds. */
  lemma LinkTextNamesAll(h: Headline)
    ensures var s := LinkText(h);
            && Text.Contains(s, h.repoUrl) && Text.Contains(s, h.owner) && Text.Contains(s, h.name)
            && Text.Contains(s, h.releaseUrl) && Text.Contains(s, h.releaseName)
  {
    var t9 := h.releaseName + Released;
    var t8 := "|" + t9;
    var t7 := h.releaseUrl + t8;
    var t6 := ": <" + t7;
    var t5 := ">" + t6;
    var t4 := h.name + t5;
    var t3 := "/" + t4;
    var t2 := h.owner + t3;
    var t1 := "|" + t2;
    var t0 := h.repoUrl + t1;
    // Each value starts one of the suffixes t0..t9; adding the pieces in
    // front of that suffix one at a time keeps the value contained.
    assert Text.Contains(t9, h.releaseName);
    Text.ContainsExtend("|", t9, h.releaseName);
    Text.ContainsExtend(h.releaseUrl, t8, h.releaseName);
    Text.ContainsExtend(": <", t7, h.releaseName);
    Text.ContainsExtend(">", t6, h.releaseName);
    Text.ContainsExtend(h.name, t5, h.releaseName);
    Text.ContainsExtend("/", t4, h.releaseName);
    Text.ContainsExtend(h.owner, t3, h.releaseName);
    Text.ContainsExtend("|", t2, h.releaseName);
    Text.ContainsExtend(h.repoUrl, t1, h.releaseName);
    Text.ContainsExtend("<", t0, h.releaseName);
    assert Text.Contains(t7, h.releaseUrl);
    Text.ContainsExtend(": <", t7, h.releaseUrl);
    Text.ContainsExtend(">", t6, h.releaseUrl);
    Text.ContainsExtend(h.name, t5, h.releaseUrl);
    Text.ContainsExtend("/", t4, h.releaseUrl);
    Text.ContainsExtend(h.owner, t3, h.releaseUrl);
    Text.ContainsExtend("|", t2, h.releaseUrl);
    Text.ContainsExtend(h.repoUrl, t1, h.releaseUrl);
    Text.ContainsExtend("<", t0, h.releaseUrl);
    assert Text.Contains(t4, h.name);
    Text.ContainsExtend("/", t4, h.name);
    Text.ContainsExtend(h.owner, t3, h.name);
    Text.ContainsExtend("|", t2, h.name);
    Text.ContainsExtend(h.repoUrl, t1, h.name);
    Text.ContainsExtend("<", t0, h.name);
    assert Text.Contains(t2, h.owner);
    Text.ContainsExtend("|", t2, h.owner);
    Text.ContainsExtend(h.repoUrl, t1, h.owner);
    Text.ContainsExtend("<", t0, h.owner);
    assert Text.Contains(t0, h.repoUrl);
    Text.ContainsExtend("<", t0, h.repoUrl);
    assert LinkText(h) == "<" + t0;
  }

  /** A link line is read back unambiguously when the first URL has no `|`,
      the owner no `/`, the repository name no `>` and the release URL no `|`;
      the release name may hold anything. */
  predicate Unambiguous(h: Headline) {
    '|' !in h.repoUrl && '/' !in h.owner && '>' !in h.name && '|' !in h.releaseUrl
  }

  /** Reads a link line back into its five values; whatever it returns renders
      to exactly the line it was given. */
  function ParseLinkText(s: string): (r: Option<Headline>)
    ensures r.Some? ==> LinkText(r.value) == s
    ensures r.Some? ==> Unambiguous(r.value)
  {
    var s1 :- Text.StripPrefix("<", s);
    var (repoUrl, s2) :- Text.SplitOn(s1, '|');
    var (owner, s3) :- Text.SplitOn(s2, '/');
    var (name, s4) :- Text.SplitOn(s3, '>');
    var s5 :- Text.StripPrefix(": <", s4);
    var (releaseUrl, s6) :- Text.SplitOn(s5, '|');
    var releaseName :- Text.StripSuffix(Released, s6);
    var h := Headline(repoUrl, owner, name, releaseUrl, releaseName);
    assert LinkText(h) == s;
    Some(h)
  }

  /** Every unambiguous headline survives rendering and reading back. */
  lemma LinkTextRoundTrip(h: Headline)
    requires Unambiguous(h)
    ensures ParseLinkText(LinkText(h)) == Some(h)
  {
    var s6 := h.releaseName + Released;
    var s5 := h.releaseUrl + ("|" + s6);
    var s4 := ": <" + s5;
    var s3 := h.name + (">" + s4);
    var s2 := h.owner + ("/" + s3);
    var s1 := h.repoUrl + ("|" + s2);
    assert LinkText(h) == "<" + s1;
    Text.StripPrefixJoin("<", s1);
    Text.SplitOnJoin(h.repoUrl, '|', s2);
    Text.SplitOnJoin(h.owner, '/', s3);
    Text.SplitOnJoin(h.name, '>', s4);
    Text.StripPrefixJoin(": <", s5);
    Text.SplitOnJoin(h.releaseUrl, '|', s6);
    Text.StripSuffixJoin(h.releaseName, Released);
  }

  // ---------------------------------------------------------------------------
  // The pretext: "*owner/name* - _releaseName_"
  // ---------------------------------------------------------------------------

  /** The pretext, grouped from the right like the link line: "owner/name"
      in bold and the release name in italics. `ParsePretext` reads it back. */
  function Pretext(owner: string, name: string, releaseName: string): (s: string)
    ensures "*" <= s
    ensures |s| > 0 && s[|s| - 1] == '_'
  {
    "*" + (owner + ("/" + (name + ("*" + (" - _" + (releaseName + "_"))))))
  }

  /** The pretext names the owner, the repository and the release. */
  lemma PretextNamesAll(owner: string, name: string, releaseName: string)
    ensures var s := Pretext(owner, name, releaseName);
            Text.Contains(s, owner) && Text.Contains(s, name) && Text.Contains(s, releaseName)
  {
    var t5 := releaseName + "_";
    var t4 := " - _" + t5;
    var t3 := "*" + t4;
    var t2 := name + t3;
    var t1 := "/" + t2;
    var t0 := owner + t1;
    // As in LinkText: each value starts a suffix, extended piece by piece.
    assert Text.Contains(t5, releaseName);
    Text.ContainsExtend(" - _", t5, releaseName);
    Text.ContainsExtend("*", t4, releaseName);
    Text.ContainsExtend(name, t3, releaseName);
    Text.ContainsExtend("/", t2, releaseName);
    Text.ContainsExtend(owner, t1, releaseName);
    Text.ContainsExtend("*", t0, releaseName);
    assert Text.Contains(t2, name);
    Text.ContainsExtend("/", t2, name);
    Text.ContainsExtend(owner, t1, name);
    Text.ContainsExtend("*", t0, name);
    assert Text.Contains(t0, owner);
    Text.ContainsExtend("*", t0, owner);
    assert Pretext(owner, name, releaseName) == "*" + t0;
  }

  /** Reads a pretext back into owner, repository name and release name;
      whatever it returns renders to exactly the pretext it was given. */
  function ParsePretext(s: string): (r: Option<(string, string, string)>)
    ensures r.Some? ==> Pretext(r.value.0, r.value.1, r.value.2) == s
    ensures r.Some? ==> '/' !in r.value.0 && '*' !in r.value.1
  {
    var s1 :- Text.StripPrefix("*", s);
    var (owner, s2) :- Text.SplitOn(s1, '/');
    var (name, s3) :- Text.SplitOn(s2, '*');
    var s4 :- Text.StripPrefix(" - _", s3);
    var releaseName :- Text.StripSuffix("_", s4);
    assert Pretext(owner, name, releaseName) == s;
    Some((owner, name, releaseName))
  }

  /** A pretext whose owner has no `/` and whose repository name has no `*`
      survives rendering and reading back. */
  lemma PretextRoundTrip(owner: string, name: string, releaseName: string)
    requires '/' !in owner && '*' !in name
    ensures ParsePretext(Pretext(owner, name, releaseName)) == Some((owner, name, releaseName))
  {
    var s4 := releaseName + "_";
    var s3 := " - _" + s4;
    var s2 := name + ("*" + s3);
    var s1 := owner + ("/" + s2);
    assert Pretext(owner, name, releaseName) == "*" + s1;
    Text.StripPrefixJoin("*", s1);
    Text.SplitOnJoin(owner, '/', s2);
    Text.SplitOnJoin(name, '*', s3);
    Text.StripPrefixJoin(" - _", s4);
    Text.StripSuffixJoin(releaseName, "_");
  }

  // ---------------------------------------------------------------------------
  // The payload
  // ---------------------------------------------------------------------------

  /** The fixed shape every payload built here has: one attachment whose
      fallback equals its text, one non-short "Description" field, one of the
      two border colours, the fixed footer and icon, and markdown enabled for
      the pretext only. */
  predicate WellShaped(p: SlackPayload) {
    && |p.attachments| == 1
    && var a := p.attachments[0];
    && a.fallback == a.text
    && (a.color == PrereleaseColor || a.color == ReleaseColor)
    && |a.fields| == 1
    && a.fields[0].title == DescriptionTitle
    && !a.fields[0].short
    && a.footer == Footer
    && a.footerIcon == FooterIcon
    && a.markdownIn == MarkdownIn
  }

  /** The release a well-shaped payload describes: its name and URL from the
      title and title link, its description from the single field, its
      publish time from the timestamp and its prerelease flag from the
      colour. */
  function ReleaseOf(p: SlackPayload): (r: Release)
    requires WellShaped(p)
  {
    var a := p.attachments[0];
    Release(a.title, a.fields[0].value, a.titleLink, a.ts, a.color == PrereleaseColor)
  }

  /** The notification for `repo`, as `SlackSender.Send` assembles it before
      serialising. */
  function BuildPayload(repo: Repository): (p: SlackPayload)
    ensures WellShaped(p)
    ensures ReleaseOf(p) == repo.release
    ensures p.attachments[0].color == PrereleaseColor <==> repo.release.isPrerelease
    ensures p.attachments[0].text == LinkText(HeadlineOf(repo))
    ensures p.attachments[0].pretext == Pretext(repo.owner, repo.name, repo.release.name)
    ensures forall k :: k in p.attachments[0].markdownIn ==> k in AttachmentKeys()
  {
    var textContent := LinkText(HeadlineOf(repo));
    SlackPayload([
      SlackAttachment(
        fallback := textContent,
        text := textContent,
        pretext := Pretext(repo.owner, repo.name, repo.release.name),
        color := BorderColor(repo.release.isPrerelease),
        title := repo.release.name,
        titleLink := repo.release.url,
        fields := [AttachmentField(DescriptionTitle, repo.release.description, false)],
        footer := Footer,
        footerIcon := FooterIcon,
        markdownIn := MarkdownIn,
        ts := repo.release.publishedAt)])
  }

  /** The repository record a payload announces, if the payload is one that
      `BuildPayload` could have produced; a record it returns rebuilds exactly
      the payload it was given. */
  function RepositoryOf(p: SlackPayload): (r: Option<Repository>)
    ensures r.Some? ==> BuildPayload(r.value) == p
  {
    if !WellShaped(p) then None
    else
      var a := p.attachments[0];
      var h :- ParseLinkText(a.text);
      var repo := Repository(h.owner, h.name, h.repoUrl, ReleaseOf(p));
      if HeadlineOf(repo) == h && a.pretext == Pretext(h.owner, h.name, h.releaseName) then
        RebuildWellShaped(p, repo);
        Some(repo)
      else
        None
  }

  /** A well-shaped payload is rebuilt from a record that carries its
      release, its link line and its pretext. */
  lemma RebuildWellShaped(p: SlackPayload, repo: Repository)
    requires WellShaped(p)
    requires repo.release == ReleaseOf(p)
    requires p.attachments[0].text == LinkText(HeadlineOf(repo))
    requires p.attachments[0].pretext == Pretext(repo.owner, repo.name, repo.release.name)
    ensures BuildPayload(repo) == p
  {
    var a := p.attachments[0];
    var b := BuildPayload(repo).attachments[0];
    assert a.fields == [a.fields[0]];
    assert a.fields[0] == AttachmentField(a.fields[0].title, a.fields[0].value, a.fields[0].short);
    assert b.fields == a.fields;
    assert b.color == a.color;
    assert b == a;
    assert p.attachments == [a];
  }

  /** A repository whose owner, name and URLs keep the link line unambiguous. */
  predicate Readable(repo: Repository) {
    Unambiguous(HeadlineOf(repo))
  }

  /** Building a payload loses nothing: every readable repository record is
      recovered from its notification. */
  lemma PayloadRoundTrip(repo: Repository)
    requires Readable(repo)
    ensures RepositoryOf(BuildPayload(repo)) == Some(repo)
  {
    LinkTextRoundTrip(HeadlineOf(repo));
  }

  /** Two repository records whose owners contain no `/` and that have the
      same notification are the same record: the release comes back from the
      title, title link, field and timestamp, owner and name from the pretext,
      and the repository URL from the link line. */
  lemma BuildPayloadInjective(r1: Repository, r2: Repository)
    requires '/' !in r1.owner && '/' !in r2.owner
    requires BuildPayload(r1) == BuildPayload(r2)
    ensures r1 == r2
  {
    assert r1.release == r2.release;
    var rn := r1.release.name;
    var tail := "*" + (" - _" + (rn + "_"));
    PretextSplit(r1.owner, r1.name, rn);
    PretextSplit(r2.owner, r2.name, rn);
    Text.AppendCancelRight(r1.name, r2.name, tail);
    var rest := "|" + (r1.owner + ("/" + (r1.name + (">" + (": <"
      + (r1.release.url + ("|" + (rn + Released))))))));
    assert LinkText(HeadlineOf(r1)) == "<" + (r1.url + rest);
    assert LinkText(HeadlineOf(r2)) == "<" + (r2.url + rest);
    Text.AppendCancelLeft("<", r1.url + rest, r2.url + rest);
    Text.AppendCancelRight(r1.url, r2.url, rest);
  }

  /** Past its leading `*`, a pretext splits at its first `/` into the owner
      and the rest, when the owner has no `/`. */
  lemma PretextSplit(owner: string, name: string, releaseName: string)
    requires '/' !in owner
    ensures var tail := "*" + (" - _" + (releaseName + "_"));
            && Text.StripPrefix("*", Pretext(owner, name, releaseName)).Some?
            && Text.SplitOn(Text.StripPrefix("*", Pretext(owner, name, releaseName)).value, '/')
               == Some((owner, name + tail))
  {
    var tail := "*" + (" - _" + (releaseName + "_"));
    Text.StripPrefixJoin("*", owner + ("/" + (name + tail)));
    Text.SplitOnJoin(owner, '/', name + tail);
  }

  /** A `/` inside an owner is ambiguous: moving the part after it from the
      owner to the front of the repository name leaves the notification
      unchanged. */
  lemma SlashInOwnerAmbiguous(a: string, b: string, name: string, url: string, release: Release)
    ensures BuildPayload(Repository(a + ("/" + b), name, url, release))
         == BuildPayload(Repository(a, b + ("/" + name), url, release))
  {
    var r1 := Repository(a + ("/" + b), name, url, release);
    var r2 := Repository(a, b + ("/" + name), url, release);
    var pt := "*" + (" - _" + (release.name + "_"));
    Text.Regroup(a, "/", b, "/" + (name + pt));
    Text.Regroup(b, "/", name, pt);
    assert Pretext(r1.owner, r1.name, release.name) == Pretext(r2.owner, r2.name, release.name);
    var lt := ">" + (": <" + (release.url + ("|" + (release.name + Released))));
    Text.Regroup(a, "/", b, "/" + (name + lt));
    Text.Regroup(b, "/", name, lt);
    assert LinkText(HeadlineOf(r1)) == LinkText(HeadlineOf(r2));
  }

  /** The pretext and the link line of a payload name the same owner,
      repository and release, and the release name is also the title. */
  lemma PretextAgreesWithLinkText(repo: Repository)
    requires Readable(repo) && '*' !in repo.name
    ensures var a := BuildPayload(repo).attachments[0];
            && ParseLinkText(a.text).Some?
            && var h := ParseLinkText(a.text).value;
            && ParsePretext(a.pretext) == Some((h.owner, h.name, h.releaseName))
            && h.releaseName == a.title
            && h.releaseUrl == a.titleLink
  {
    LinkTextRoundTrip(HeadlineOf(repo));
    PretextRoundTrip(repo.owner, repo.name, repo.release.name);
  }

  /** The description reaches the payload verbatim, empty or not, and it is
      the only field. */
  lemma DescriptionVerbatim(repo: Repository)
    ensures BuildPayload(repo).attachments[0].fields
         == [AttachmentField("Description", repo.release.description, false)]
  {
  }

  /** The release-announcement example: a stable release of acme/widget
      published at 2023-01-01T00:00:00Z. */
  lemma WidgetExample(repo: Repository)
    requires repo.owner == "acme" && repo.name == "widget"
    requires repo.release.name == "v1.2.0"
    requires repo.release.publishedAt == 1672531200 && !repo.release.isPrerelease
    ensures var a := BuildPayload(repo).attachments[0];
            && a.pretext == "*acme/widget* - _v1.2.0_"
            && a.color == "#15e415"
            && a.ts == 1672531200
  {
    WidgetPretext(repo.owner, repo.name, repo.release.name);
  }

  /** The example's pretext, computed from its three parts. */
  lemma WidgetPretext(owner: string, name: string, releaseName: string)
    requires owner == "acme" && name == "widget" && releaseName == "v1.2.0"
    ensures Pretext(owner, name, releaseName) == "*acme/widget* - _v1.2.0_"
  {
  }
}

=== FILE: text.dfy ===
/** String helpers used to state what the rendered Slack strings contain and
    to read them back. Strings are sequences of characters; nothing here
    normalises or escapes. */
module Text {
  import opened Results

  /** Whether `t` occurs in `s` as a contiguous run of characters. */
  predicate Contains(s: string, t: string)
    decreases |s|
  {
    t <= s || (|s| > 0 && Contains(s[1..], t))
  }

  /** Putting characters in front of a string keeps what it contains. */
  lemma {:induction false} ContainsExtend(a: string, s: string, t: string)
    requires Contains(s, t)
    ensures Contains(a + s, t)
  {
    if |a| == 0 {
      assert a + s == s;
    } else {
      ContainsExtend(a[1..], s, t);
      assert (a + s)[1..] == a[1..] + s;
    }
  }

  /** Whatever surrounds it, a string contains each of its middle parts. */
  lemma ContainsMiddle(a: string, t: string, b: string)
    ensures Contains(a + (t + b), t)
  {
    assert Contains(t + b, t);
    ContainsExtend(a, t + b, t);
  }

  /** Containment is transitive. */
  lemma {:induction false} ContainsTransitive(s: string, t: string, u: string)
    requires Contains(s, t) && Contains(t, u)
    ensures Contains(s, u)
    decreases |s|
  {
    if t <= s {
      PrefixContains(s, t, u);
    } else {
      ContainsTransitive(s[1..], t, u);
    }
  }

  /** A string contains whatever its prefixes contain. */
  lemma {:induction false} PrefixContains(s: string, t: string, u: string)
    requires t <= s && Contains(t, u)
    ensures Contains(s, u)
    decreases |t|
  {
    if u <= t {
      assert u <= s;
    } else {
      assert t[1..] <= s[1..];
      PrefixContains(s[1..], t[1..], u);
    }
  }

  /** The rest of `s` after the prefix `p`, if `s` starts with `p`. */
  function StripPrefix(p: string, s: string): (r: Option<string>)
    ensures r.Some? <==> p <= s
    ensures r.Some? ==> s == p + r.value
  {
    if p <= s then
      assert s == p + s[|p|..];
      Some(s[|p|..])
    else
      None
  }

  /** The part of `s` before the suffix `p`, if `s` ends with `p`. */
  function StripSuffix(p: string, s: string): (r: Option<string>)
    ensures r.Some? <==> |p| <= |s| && s[|s| - |p|..] == p
    ensures r.Some? ==> s == r.value + p
  {
    if |p| <= |s| && s[|s| - |p|..] == p then
      assert s == s[..|s| - |p|] + p;
      Some(s[..|s| - |p|])
    else
      None
  }

  lemma StripPrefixJoin(p: string, t: string)
    ensures StripPrefix(p, p + t) == Some(t)
  {
    assert p <= p + t;
  }

  lemma StripSuffixJoin(t: string, p: string)
    ensures StripSuffix(p, t + p) == Some(t)
  {
    var s := t + p;
    assert s[|s| - |p|..] == p;
    assert s[..|s| - |p|] == t;
  }

  /** Equal strings with equal endings have equal beginnings. */
  lemma AppendCancelRight(a: string, b: string, t: string)
    requires a + t == b + t
    ensures a == b
  {
    assert |a| == |b|;
    assert a == (a + t)[..|a|];
    assert b == (b + t)[..|b|];
  }

  /** Equal strings with equal beginnings have equal endings. */
  lemma AppendCancelLeft(p: string, a: string, b: string)
    requires p + a == p + b
    ensures a == b
  {
    assert a == (p + a)[|p|..];
    assert b == (p + b)[|p|..];
  }

  /** `(x + (y + z)) + w` and `x + (y + (z + w))` are the same string. */
  lemma Regroup(x: string, y: string, z: string, w: string)
    ensures (x + (y + z)) + w == x + (y + (z + w))
  {
  }

  /** Splits `s` at the first occurrence of `c` into the part before and the
      part after it; `None` exactly when `c` does not occur. */
  function SplitOn(s: string, c: char): (r: Option<(string, string)>)
    ensures r.None? <==> c !in s
    ensures r.Some? ==> c !in r.value.0 && s == r.value.0 + ([c] + r.value.1)
  {
    if |s| == 0 then
      None
    else if s[0] == c then
      assert s == [] + ([c] + s[1..]);
      Some(([], s[1..]))
    else
      var rest := SplitOn(s[1..], c);
      if rest.None? then
        None
      else
        var (before, after) := rest.value;
        assert s == [s[0]] + (before + ([c] + after));
        assert [s[0]] + (before + ([c] + after)) == ([s[0]] + before) + ([c] + after);
        Some(([s[0]] + before, after))
  }

  /** Splitting at a character that the first part does not contain gives the
      two parts back. */
  lemma {:induction false} SplitOnJoin(a: string, c: char, b: string)
    requires c !in a
    ensures SplitOn(a + ([c] + b), c) == Some((a, b))
  {
    var s := a + ([c] + b);
    if |a| == 0 {
      assert s == [c] + b;
    } else {
      var tail := a[1..] + ([c] + b);
      assert s[0] == a[0] && a[0] != c;
      assert s[1..] == tail;
      SplitOnJoin(a[1..], c, b);
      assert SplitOn(tail, c) == Some((a[1..], b));
      assert [a[0]] + a[1..] == a;
    }
  }
}
